=== FILE: README.md ===
# relecloud in Dafny

A Dafny model of the logic in the relecloud Django site. The site lists cruise
destinations and cruises. Visitors can send an information request about a cruise
and leave a rating and comment on a destination. Two parts carry logic of their own:

- **The mail decision of `InfoRequestCreate.form_valid`.** It runs after an
  InfoRequest is saved. From the `CONTACT_EMAIL` and `DEFAULT_FROM_EMAIL`
  settings and the requester's email, it decides which messages to attempt, in
  what order, to whom, with which subject and body, and what it logs. Module
  `Notifier` holds it. Module `Views` composes it with form validation, the
  save and the success redirect.
- **The schema rules.** These cover the field constraints of `Destination`,
  `Cruise`, `InfoRequest` and `Review` (`max_length`, `blank=False`, the 1..5
  rating validators, the `"Anonymous"` author default) and the `__str__`
  display strings (module `Models`). They also cover the review form's field
  subset (module `Forms`). A small in-memory store (module `Store`) keeps
  unique ids, unique names and resolvable references. It deletes a Destination
  with CASCADE to its Reviews and refuses to delete a Cruise that an
  InfoRequest still references (PROTECT).

Everything is a pure function over immutable datatypes. Settings, the store
and mail failures are explicit parameters:

- `Config` holds the two settings. `CONTACT_EMAIL` may be absent or empty. `DEFAULT_FROM_EMAIL` has the framework default `"webmaster@localhost"`, so in practice it is only ever false when set to the empty string; the model allows absence as well, which changes no branch.
- `MailFaults` says whether the admin send raises and whether the confirmation
  send fails.
- `now` is the timestamp the store gives a new Review.

Supporting modules:

- `Wrappers`: `Option` and `Result`.
- `Text`: Python truthiness of a setting, and `str(int)` with a parser that
  inverts it.
- `Seqs`: order-preserving filtering, and distinct keys in a table.

Facts about the code that shape the model:

- Both sends share one `try` (views.py:73-90). A raising admin send therefore
  skips the confirmation.
- The admin recipient is the `CONTACT_EMAIL` setting. The sender is
  `DEFAULT_FROM_EMAIL`. No reply-to header is set.
- `"Anonymous"` is only the field default of `Review.author`. A blank
  submitted author is rejected, because the field is `blank=False`.
- `Review.comment` has no `blank=True`, so the form requires it.
- `Cruise.destinations` has no `blank=True`, so a cruise form requires at least
  one destination.
- There is no rating average, top-3 list or pagination: `destinations`
  returns every record.

## Model

| member | source | states |
|---|---|---|
| Notifier.Notify | django/django/relecloud/views.py:69-90 | The admin notice (the one `fail_silently=False` send) is attempted iff contact and sender are both non-empty. It goes to exactly `[contact]` from the sender. The confirmation is attempted iff sender and requester email are non-empty and the admin send did not raise. It goes to exactly `[email]`. At most two attempts, admin first. The log outcome is `ExceptionLogged` iff the admin send raised, and `SkippedNotConfigured` iff the admin notice was not configured. |
| Notifier.FullyConfiguredSendsTwo | django/django/relecloud/tests.py:33-36 | With contact, sender and requester email set and no failures, the outbox holds exactly 2 messages: first the admin notice to exactly `[contact]`, then the confirmation to exactly `[email]`. |
| Notifier.NoContactSendsOnlyConfirmation | django/django/relecloud/tests.py:53-54 | With an empty or absent contact but a sender and requester email, the outbox holds exactly one message, addressed to `[email]`. The "not configured" note is logged. |
| Notifier.NoRequesterEmailSendsOnlyAdmin | django/django/relecloud/views.py:74-87 | With an empty requester email, only the admin notice goes out, to `[contact]`. |
| Notifier.NoSenderSendsNothing | django/django/relecloud/views.py:71-80 | Without a sender address nothing is attempted, whatever fails, and the "not configured" note is logged. |
| Notifier.AdminFailureSkipsConfirmation | django/django/relecloud/views.py:73-90 | A raising admin send is caught and logged. It is the only attempt, the confirmation is skipped, and nothing is delivered. |
| Notifier.ConfirmationFailureIsSwallowed | django/django/relecloud/views.py:87 | A failing confirmation is attempted last, no exception is logged, and the outbox holds only the admin notice when one was configured. |
| Notifier.AdminBodyListsFieldsInOrder | django/django/relecloud/views.py:62-67 | The admin body holds `Name: {name}`, `Email: {email}`, `Cruise: {cruise}` and `Notes:` plus the notes, at consecutive positions in that order, and ends with a newline. |
| Notifier.AdminSubjectNamesCruiseAndRequester | django/django/relecloud/views.py:61 | The admin subject is "New info request for ", then the cruise, then " from ", then the requester's name, which ends it. |
| Notifier.ConfirmationSubjectEndsWithCruise | django/django/relecloud/views.py:81 | The confirmation subject is "We received your info request for " followed by the cruise's display, which ends it; its length is exactly the two together. |
| Notifier.ConfirmationAddressesRequester | django/django/relecloud/views.py:82-86 | The confirmation body is, at consecutive positions, "Hi {name}", the thanks lines with the cruise and the notes, "We will contact you at {email}", and the closing line, which ends it. Each part's exact start and the total length are stated. |
| Notifier.Outbox | django/django/relecloud/tests.py:33 | A message is in the outbox iff some delivered attempt carries it. It is no longer than the attempts. When every attempt is delivered it lists the attempted messages one for one, in attempt order. A delivered first attempt is the first message. |
| Notifier.OutboxIsKept | django/django/relecloud/views.py:73-87 | The outbox is, position by position, the messages of the delivered attempts in attempt order. Each delivered message appears once, and a failed attempt, such as a swallowed confirmation, leaves no entry. |
| Notifier.Recipients | django/django/relecloud/tests.py:34 | The recipients are exactly the addresses of the messages. Every address of every message is included, and nothing else is. The first message's list comes first, and a single message's recipients are its own list. |
| Views.HandleInfoRequest | django/django/relecloud/views.py:56-92 | The answer is a redirect iff the form is valid. An invalid form is shown again with exactly the form's field errors, the store is unchanged, and the mail decision does not run at all. A valid form first stores exactly one new InfoRequest with the submitted fields. The mail decision then runs on that saved record. The answer is the redirect to `index` with the success message. Validity of the store is preserved. |
| Views.MailFaultsNeverChangeResponse | django/django/relecloud/views.py:89-92 | No mail failure changes the response or the store: any two fault patterns give the same result. |
| Views.FormErrors | django/django/relecloud/views.py:52 | The errors of the request form (`name`, `email`, `cruise`, `notes`) are empty iff the form is valid. Each field is flagged iff its own value is blank, too long or an unknown cruise. |
| Views.SuccessMessageNamesRequesterAndCruise | django/django/relecloud/views.py:54 | The success message is "Thank you, ", the requester's name, "! We will email you when we have more information about ", and the cruise followed by "!", which ends it. Each part's start and the total length are stated. |
| Models.TextErrors | django/django/relecloud/models.py:8-18 | A `blank=False` field with a `max_length` reports no error iff it is non-empty and within the limit. A blank value reports exactly `Required`. |
| Models.RatingErrors | django/django/relecloud/models.py:65-67 | A rating reports no error iff 1 <= rating <= 5. 0 reports the min-value error and 6 the max-value error. |
| Models.NewReview | django/django/relecloud/models.py:64 | A Review built without an author gets `"Anonymous"`, which meets the author constraint. A supplied author is kept unchanged. |
| Models.DestinationDisplay | django/django/relecloud/models.py:20-21 | A valid destination displays as a non-empty string of at most 50 characters (its name). |
| Models.CruiseDisplay | django/django/relecloud/models.py:40-41 | A valid cruise displays as a non-empty string of at most 50 characters (its name). This is what `{info.cruise}` renders in the mail texts. |
| Models.ReviewDisplayReadsBack | django/django/relecloud/models.py:72-73 | A valid review displays as its rating digit, which reads back as the rating, then "/5 for ", the destination name, " by " and the author, which ends the string. |
| Text.ParseIntOfIntToString | django/django/relecloud/models.py:73 | The rendering of an integer rating reads back as the same integer. |
| Forms.ValidateReview | django/django/relecloud/forms.py:4-7 | Every submission of the three bound fields is accepted or rejected. It is accepted iff author and comment are non-blank and within 50 and 1000 characters and the rating is a whole number in 1..5. A rejection carries at least one error, and each of author, rating and comment is flagged iff it is unacceptable. |
| Forms.RatingInputAccepts | django/django/relecloud/forms.py:10 | The rating input's min 1 / max 5 accept exactly the ratings the model validators accept. |
| Forms.RatingInputErrors | django/django/relecloud/models.py:65-67 | A rating input has no error iff it is a whole number within the validator bounds. Every error it reports concerns the rating field. |
| Forms.ValidFormGivesValidReview | django/django/relecloud/models.py:64-69 | The cleaned data of a valid form, placed on any destination at any time, is a Review that meets every model constraint. |
| Store.SubmitReview | django/django/relecloud/models.py:62-70 | Assumed handler (see Left out): a review posted on a missing destination is a 404. An invalid form is shown again with exactly the errors of `Forms.ValidateReview`, so each field is flagged iff it is at fault, and a rejection leaves the store exactly as it was. A valid form appends one Review on that destination, with the server's timestamp and the submitted author, rating and comment. Validity is preserved. |
| Store.AddDestination | django/django/relecloud/models.py:7-18 | Creation succeeds iff the name is non-blank, at most 50 characters and not taken, and the description is non-blank and at most 2000 characters. The name is flagged iff it is blank, too long or taken. On success exactly one record is appended, and validity is preserved. |
| Store.AddCruise | django/django/relecloud/models.py:26-38 | Creation succeeds iff name and description meet their constraints, the name is not taken, at least one destination is chosen and every chosen destination exists. An empty choice is reported as `Required`. The name and choice fields are flagged exactly when they are at fault. On success exactly one record is appended, and validity is preserved. |
| Store.InsertInfoRequest | django/django/relecloud/models.py:46-61 | Appends exactly the new request under a fresh id on an existing cruise and leaves the other tables unchanged. A valid request keeps the store valid. |
| Store.DeleteDestination | django/django/relecloud/models.py:63 | Deleting a missing destination fails. Otherwise exactly that destination is removed, exactly the Reviews on it are removed, each cruise loses only its link to it, and the InfoRequests and the id counter are unchanged. |
| Store.DeleteDestinationPreservesValid | django/django/relecloud/models.py:63 | After a cascade delete, no Review or cruise link points at a missing destination, and the store stays valid. |
| Store.DeleteCruise | django/django/relecloud/models.py:58-61 | Deleting a cruise that an InfoRequest references is refused (`Protected`), and so is deleting a missing one. Otherwise exactly that cruise is removed and every other table is unchanged. |
| Store.DeleteCruisePreservesValid | django/django/relecloud/models.py:58-61 | A permitted cruise delete leaves every InfoRequest pointing at an existing cruise, and the store stays valid. |
| Store.AppendDestinationValid | django/django/relecloud/models.py:8-13 | Appending a valid destination with a fresh id and an untaken name keeps ids and names unique and all references resolvable. |
| Store.AppendCruiseValid | django/django/relecloud/models.py:27-38 | Appending a valid cruise with a fresh id, an untaken name and existing destinations keeps the store valid. |
| Store.AppendReviewValid | django/django/relecloud/models.py:63-69 | Appending a valid review with a fresh id on an existing destination keeps the store valid. |

## Left out

- SMTP transport, `send_mail` internals and log text. A send is an abstract event that either goes through or fails, and the log is one of three outcome tags.
- Notifier.ConfirmationFailureIsSwallowed: a non-SMTP exception escaping a `fail_silently=True` send would reach the shared `except` and be logged. The model treats every confirmation failure as swallowed, as `fail_silently=True` intends.
- Email address syntax (`EmailField`'s validator and its default length limit of 254) belongs to the framework library. Emails are opaque strings, and only blank ones are rejected.
- Converting the rating text to an integer is the library's job. A submitted rating arrives as `Blank`, `Malformed` or a whole number.
- Forms strip surrounding whitespace before the blank check. The model receives the value after stripping.
- The generic list, detail, create, update and delete views and the `index`, `about` and `destinations` pages (views.py:14-47) are routing and templates. Editing a Destination is not modelled. Its rules are those of `AddDestination`, with the record's own name exempt from the uniqueness check.
- Store.SubmitReview: no view in the code accepts a review post. `DestinationDetailView` (views.py:24-27) is a read-only `DetailView`, and `ReviewForm` is not used by any view. The 404 on a missing destination and the redirect to the destination page are assumed handler behaviour; only the form validation and the model constraints come from the code.
- Image uploads, `get_absolute_url`/`reverse`, ORM persistence and transactions are not modelled. The store is a value, and ids come from one counter shared by all tables.
- `created_at` is wall-clock time. It is a `now` parameter chosen by the caller.
- Rating averages, top-3 lists and pagination are not in the code, so they are not modelled.

=== FILE: forms.dfy ===
/** The review form: the user-settable subset of a Review (author, rating,
    comment) and its validation. The destination and the creation time are
    not fields of a submission, so they can never come from user input. */
module Forms {
  import opened Wrappers
  import opened Models

  /** Bounds of the rating number input widget (`min`, `max` attributes). */
  const RatingInputMin: int := 1
  const RatingInputMax: int := 5

  /** The rating text as the integer field converts it. */
  datatype RatingInput = Blank | Malformed | Number(n: int)

  /** The three bound fields of a submitted review form. */
  datatype ReviewSubmission = ReviewSubmission(author: string, rating: RatingInput, comment: string)

  /** The cleaned data of a valid review form. */
  datatype ReviewData = ReviewData(author: string, rating: int, comment: string)

  /** A value the rating input accepts is exactly a value the model's
      validators accept. */
  function RatingInputAccepts(n: int): (b: bool)
    ensures b <==> ValidRating(n)
  {
    RatingInputMin <= n <= RatingInputMax
  }

  predicate ValidSubmission(sub: ReviewSubmission) {
    && RequiredText(sub.author, AuthorMaxLength)
    && sub.rating.Number?
    && ValidRating(sub.rating.n)
    && RequiredText(sub.comment, CommentMaxLength)
  }

  function RatingInputErrors(rating: RatingInput): (es: seq<FieldError>)
    ensures es == [] <==> rating.Number? && ValidRating(rating.n)
    ensures forall e :: e in es ==> e.field == Rating
  {
    match rating
    case Blank => [FieldError(Rating, Required)]
    case Malformed => [FieldError(Rating, NotAnInteger)]
    case Number(n) => RatingErrors(n)
  }

  /** Validates a submission: every submission is either accepted with its
      cleaned data, or rejected with at least one error, where each of the
      three fields is flagged exactly when it is unacceptable. */
  function ValidateReview(sub: ReviewSubmission): (r: Result<ReviewData, seq<FieldError>>)
    ensures r.Ok? <==> ValidSubmission(sub)
    ensures r.Ok? ==> r.value.author == sub.author && r.value.comment == sub.comment
                      && sub.rating == Number(r.value.rating)
    ensures r.Err? ==> r.error != []
    ensures r.Err? ==> (forall e :: e in r.error ==> e.field == Author || e.field == Rating || e.field == Comment)
    ensures r.Err? ==> (Flags(r.error, Author) <==> !RequiredText(sub.author, AuthorMaxLength))
    ensures r.Err? ==> (Flags(r.error, Rating) <==> !(sub.rating.Number? && ValidRating(sub.rating.n)))
    ensures r.Err? ==> (Flags(r.error, Comment) <==> !RequiredText(sub.comment, CommentMaxLength))
  {
    var a := TextErrors(Author, sub.author, AuthorMaxLength);
    var g := RatingInputErrors(sub.rating);
    var c := TextErrors(Comment, sub.comment, CommentMaxLength);
    var es := a + g + c;
    if es == [] then Ok(ReviewData(sub.author, sub.rating.n, sub.comment))
    else
      assert forall e :: e in es ==> e in a || e in g || e in c;
      assert a != [] ==> a[0] in es;
      assert g != [] ==> g[0] in es;
      assert c != [] ==> c[0] in es;
      Err(es)
  }

  /** Cleaned data of a valid form, placed on a destination at a time chosen
      by the server, is a Review meeting every model constraint. */
  lemma ValidFormGivesValidReview(sub: ReviewSubmission, id: nat, destination: nat, createdAt: nat)
    requires ValidateReview(sub).Ok?
    ensures var d := ValidateReview(sub).value;
      ValidReview(Review(id, destination, d.author, d.rating, d.comment, createdAt))
  {
  }
}

=== FILE: models.dfy ===
/** The four record types of the relecloud schema, their field constraints
    (`max_length`, `blank=False`, the rating validators, the author default),
    the per-field error lists a form reports, and the `__str__` display strings. */
module Models {
  import opened Wrappers
  import opened Text

  const NameMaxLength: nat := 50
  const DescriptionMaxLength: nat := 2000
  const NotesMaxLength: nat := 2000
  const AuthorMaxLength: nat := 50
  const CommentMaxLength: nat := 1000
  const RatingMin: int := 1
  const RatingMax: int := 5
  const DefaultAuthor: string := "Anonymous"

  /** A destination; its optional image is not modelled. */
  datatype Destination = Destination(id: nat, name: string, description: string)

  /** A cruise and the ids of the destinations it visits (many-to-many). */
  datatype Cruise = Cruise(id: nat, name: string, description: string, destinations: set<nat>)

  /** A visitor's request for information about one cruise (`cruise` is its id). */
  datatype InfoRequest = InfoRequest(id: nat, name: string, email: string, notes: string, cruise: nat)

  /** A rating and comment on one destination; `createdAt` is an opaque
      timestamp supplied by the store at insert time. */
  datatype Review = Review(id: nat, destination: nat, author: string, rating: int, comment: string, createdAt: nat)

  /** The form fields that can carry a validation error. */
  datatype Field = Name | Description | Email | Notes | CruiseChoice | DestinationChoice | Author | Rating | Comment

  datatype Problem =
    | Required             // blank value for a `blank=False` field
    | TooLong(limit: nat)  // longer than `max_length`
    | NotAnInteger         // the rating text is not a whole number
    | BelowMin(least: int) // MinValueValidator
    | AboveMax(most: int) // MaxValueValidator
    | NotUnique            // `unique=True` name already taken
    | InvalidChoice        // a referenced record that does not exist

  datatype FieldError = FieldError(field: Field, problem: Problem)

  /** A `blank=False` text field with a `max_length`. */
  predicate RequiredText(s: string, max: nat) {
    s != "" && |s| <= max
  }

  predicate ValidRating(rating: int) {
    RatingMin <= rating <= RatingMax
  }

  /** True iff some error in `es` is about field `f`. */
  predicate Flags(es: seq<FieldError>, f: Field) {
    exists e :: e in es && e.field == f
  }

  /** The error a required, length-limited text field reports: none exactly
      when the value is acceptable, and then only about that field. */
  function TextErrors(f: Field, s: string, max: nat): (es: seq<FieldError>)
    ensures es == [] <==> RequiredText(s, max)
    ensures |es| <= 1
    ensures forall e :: e in es ==> e.field == f
    ensures s == "" ==> es == [FieldError(f, Required)]
  {
    if s == "" then [FieldError(f, Required)]
    else if |s| > max then [FieldError(f, TooLong(max))]
    else []
  }

  /** The error the rating validators report for a whole number. */
  function RatingErrors(rating: int): (es: seq<FieldError>)
    ensures es == [] <==> ValidRating(rating)
    ensures rating == RatingMin - 1 ==> es == [FieldError(Rating, BelowMin(RatingMin))]
    ensures rating == RatingMax + 1 ==> es == [FieldError(Rating, AboveMax(RatingMax))]
    ensures forall e :: e in es ==> e.field == Rating
  {
    if rating < RatingMin then [FieldError(Rating, BelowMin(RatingMin))]
    else if rating > RatingMax then [FieldError(Rating, AboveMax(RatingMax))]
    else []
  }

  predicate ValidDestination(d: Destination) {
    RequiredText(d.name, NameMaxLength) && RequiredText(d.description, DescriptionMaxLength)
  }

  predicate ValidCruise(c: Cruise) {
    RequiredText(c.name, NameMaxLength) && RequiredText(c.description, DescriptionMaxLength)
  }

  /** The requester's email must be given; its address syntax is not modelled. */
  predicate ValidInfoRequest(q: InfoRequest) {
    RequiredText(q.name, NameMaxLength) && q.email != "" && RequiredText(q.notes, NotesMaxLength)
  }

  predicate ValidReview(r: Review) {
    RequiredText(r.author, AuthorMaxLength) && ValidRating(r.rating) && RequiredText(r.comment, CommentMaxLength)
  }

  /** A Review built in code: the author falls back to "Anonymous" only when
      none is supplied at all; a supplied author is kept as given. */
  function NewReview(id: nat, destination: nat, author: Option<string>, rating: int, comment: string, createdAt: nat): (r: Review)
    ensures author.None? ==> r.author == DefaultAuthor && RequiredText(r.author, AuthorMaxLength)
    ensures author.Some? ==> r.author == author.value
    ensures r.id == id && r.destination == destination && r.rating == rating && r.comment == comment
    ensures ValidRating(rating) && RequiredText(comment, CommentMaxLength) && author.None? ==> ValidReview(r)
  {
    Review(id, destination, if author.Some? then author.value else DefaultAuthor, rating, comment, createdAt)
  }

  /** `str(destination)`: the destination's name. */
  function DestinationDisplay(d: Destination): (s: string)
    ensures ValidDestination(d) ==> 0 < |s| <= NameMaxLength
  {
    d.name
  }

  /** `str(cruise)`: the cruise's name; also what `{info.cruise}` renders. */
  function CruiseDisplay(c: Cruise): (s: string)
    ensures ValidCruise(c) ==> 0 < |s| <= NameMaxLength
  {
    c.name
  }

  const RatingSeparator: string := "/5 for "
  const AuthorSeparator: string := " by "

  /** `str(review)`: "{rating}/5 for {destination name} by {author}". */
  function ReviewDisplay(r: Review, d: Destination): string
    requires r.destination == d.id
  {
    IntToString(r.rating) + RatingSeparator + DestinationDisplay(d) + AuthorSeparator + r.author
  }

  /** For a valid review the display starts with the single rating digit,
      which reads back as the rating, followed by "/5 for ", the destination
      name, " by " and the author, which ends the string. */
  lemma ReviewDisplayReadsBack(r: Review, d: Destination)
    requires r.destination == d.id
    requires ValidReview(r)
    ensures var s := ReviewDisplay(r, d);
      && IsDigit(s[0]) && DigitValue(s[0]) == r.rating
      && OccursAt(RatingSeparator, s, 1)
      && OccursAt(d.name, s, 1 + |RatingSeparator|)
      && OccursAt(AuthorSeparator, s, 1 + |RatingSeparator| + |d.name|)
      && |s| == 1 + |RatingSeparator| + |d.name| + |AuthorSeparator| + |r.author|
      && s[|s| - |r.author|..] == r.author
  {
    var digits := IntToString(r.rating);
    assert |digits| == 1;
    ParseIntOfIntToString(r.rating);
    var s := ReviewDisplay(r, d);
    assert s == digits + RatingSeparator + d.name + AuthorSeparator + r.author;
    assert s[1..1 + |RatingSeparator|] == RatingSeparator;
    assert s[1 + |RatingSeparator|..1 + |RatingSeparator| + |d.name|] == d.name;
  }
}

=== FILE: notifier.dfy ===
/** The mail decision `InfoRequestCreate.form_valid` makes after the request
    is saved: which messages it attempts, in what order, to whom, with which
    texts, and what it logs. A send is an abstract event that either goes
    through or raises; `MailFaults` says which sends fail. */
module Notifier {
  import opened Wrappers
  import opened Text
  import opened Models
  import opened Seqs

  /** The two settings the view reads, each possibly absent or empty. */
  datatype Config = Config(contact: Option<string>, fromEmail: Option<string>)

  /** One `send_mail` call: subject, body, sender, recipient list and its
      `fail_silently` flag. */
  datatype Message = Message(subject: string, body: string, sender: string, to: seq<string>, failSilently: bool)

  /** A send that was started, and whether the message went out. */
  datatype Attempt = Attempt(message: Message, delivered: bool)

  /** What was logged: nothing (`Sent`: the admin notice went out), the
      informational "not configured" note, or the caught exception. */
  datatype Outcome = Sent | SkippedNotConfigured | ExceptionLogged

  /** Which sends fail: the admin send raises (`fail_silently=False`), and
      the confirmation fails (swallowed, `fail_silently=True`). */
  datatype MailFaults = MailFaults(adminRaises: bool, confirmFails: bool)

  const NoFaults: MailFaults := MailFaults(false, false)

  datatype Notification = Notification(attempts: seq<Attempt>, outcome: Outcome)

  const AdminSubjectPrefix: string := "New info request for "
  const NameLabel: string := "Name: "
  const EmailLabel: string := "\nEmail: "
  const CruiseLabel: string := "\nCruise: "
  const NotesLabel: string := "\n\nNotes:\n"

  /** Subject of the notice to the site owner. */
  function AdminSubject(q: InfoRequest, cruise: string): string {
    AdminSubjectPrefix + cruise + " from " + q.name
  }

  /** Body of the notice: Name, Email, Cruise and Notes, one after another. */
  function AdminBody(q: InfoRequest, cruise: string): string {
    (NameLabel + q.name) + (EmailLabel + q.email) + (CruiseLabel + cruise) + (NotesLabel + q.notes) + "\n"
  }

  const ConfirmationSubjectPrefix: string := "We received your info request for "

  /** Subject of the confirmation to the requester. */
  function ConfirmationSubject(cruise: string): string {
    ConfirmationSubjectPrefix + cruise
  }

  const Greeting: string := "Hi "
  const ThanksLines: string := ",\n\nThanks for your information request. We received the following message:\n\nCruise: "
  const ContactPromise: string := "We will contact you at "
  const Closing: string := " when we have more details.\n"

  /** Body of the confirmation, addressed to the requester by name. */
  function ConfirmationBody(q: InfoRequest, cruise: string): string {
    (Greeting + q.name) + (ThanksLines + cruise + "\nNotes:\n" + q.notes + "\n\n") + (ContactPromise + q.email) + Closing
  }

  /** `if recipient and from_email:` */
  predicate AdminConfigured(cfg: Config) {
    Truthy(cfg.contact) && Truthy(cfg.fromEmail)
  }

  /** `if from_email and info.email:` */
  predicate ConfirmationWanted(cfg: Config, q: InfoRequest) {
    Truthy(cfg.fromEmail) && q.email != ""
  }

  function AdminMessage(cfg: Config, q: InfoRequest, cruise: string): Message
    requires AdminConfigured(cfg)
  {
    Message(AdminSubject(q, cruise), AdminBody(q, cruise), cfg.fromEmail.value, [cfg.contact.value], false)
  }

  function ConfirmationMessage(cfg: Config, q: InfoRequest, cruise: string): Message
    requires ConfirmationWanted(cfg, q)
  {
    Message(ConfirmationSubject(cruise), ConfirmationBody(q, cruise), cfg.fromEmail.value, [q.email], true)
  }

  /** The mail side of `form_valid` for the saved request `q`, whose cruise
      displays as `cruise`. Both sends share one `try`: when the admin send
      raises, the exception is logged and the confirmation is never tried. */
  function Notify(cfg: Config, q: InfoRequest, cruise: string, faults: MailFaults): (n: Notification)
    // The admin notice (the only send with fail_silently=False) is tried iff
    // both settings are set, and then goes to exactly [contact] from the sender.
    ensures (exists a :: a in n.attempts && !a.message.failSilently) <==> AdminConfigured(cfg)
    ensures forall a :: a in n.attempts && !a.message.failSilently ==>
              && AdminConfigured(cfg)
              && a.message.to == [cfg.contact.value]
              && a.message.sender == cfg.fromEmail.value
              && a.message.subject == AdminSubject(q, cruise)
              && a.message.body == AdminBody(q, cruise)
              && (a.delivered <==> !faults.adminRaises)
    // The confirmation is tried iff a sender and a requester email are set
    // and the admin send did not raise; it goes to exactly [q.email].
    ensures (exists a :: a in n.attempts && a.message.failSilently)
              <==> ConfirmationWanted(cfg, q) && !(AdminConfigured(cfg) && faults.adminRaises)
    ensures forall a :: a in n.attempts && a.message.failSilently ==>
              && ConfirmationWanted(cfg, q)
              && a.message.to == [q.email]
              && a.message.sender == cfg.fromEmail.value
              && a.message.subject == ConfirmationSubject(cruise)
              && a.message.body == ConfirmationBody(q, cruise)
              && (a.delivered <==> !faults.confirmFails)
    // At most one of each, the admin notice first.
    ensures |n.attempts| <= 2
    ensures |n.attempts| == 2 ==> !n.attempts[0].message.failSilently && n.attempts[1].message.failSilently
    // What is logged.
    ensures n.outcome == ExceptionLogged <==> AdminConfigured(cfg) && faults.adminRaises
    ensures n.outcome == SkippedNotConfigured <==> !AdminConfigured(cfg)
    ensures n.outcome == Sent <==> AdminConfigured(cfg) && !faults.adminRaises
  {
    var admin := if AdminConfigured(cfg) then [Attempt(AdminMessage(cfg, q, cruise), !faults.adminRaises)] else [];
    if AdminConfigured(cfg) && faults.adminRaises then
      Notification(admin, ExceptionLogged)
    else
      var confirmation := if ConfirmationWanted(cfg, q)
                          then [Attempt(ConfirmationMessage(cfg, q, cruise), !faults.confirmFails)]
                          else [];
      var attempts := admin + confirmation;
      assert admin != [] ==> admin[0] in attempts;
      assert confirmation != [] ==> confirmation[0] in attempts;
      Notification(attempts, if AdminConfigured(cfg) then Sent else SkippedNotConfigured)
  }

  /** The messages that actually went out, in the order they were sent
      (what a test's mail outbox holds). */
  function Outbox(attempts: seq<Attempt>): (out: seq<Message>)
    ensures |out| <= |attempts|
    ensures forall m :: m in out <==> exists a :: a in attempts && a.delivered && a.message == m
    ensures (forall a :: a in attempts ==> a.delivered) ==> |out| == |attempts|
    ensures (forall a :: a in attempts ==> a.delivered) ==>
              forall i :: 0 <= i < |out| ==> out[i] == attempts[i].message
    ensures attempts != [] && attempts[0].delivered ==> out != [] && out[0] == attempts[0].message
    decreases |attempts|
  {
    if attempts == [] then []
    else
      var rest := Outbox(attempts[1..]);
      assert forall a :: a in attempts[1..] ==> a in attempts;
      assert forall a :: a in attempts ==> a == attempts[0] || a in attempts[1..];
      (if attempts[0].delivered then [attempts[0].message] else []) + rest
  }

  /** Whether an attempt went through. */
  function Delivered(a: Attempt): bool {
    a.delivered
  }

  /** The outbox is, position by position, the messages of the delivered
      attempts in attempt order: each delivered message appears once, and a
      failed attempt leaves no trace. */
  lemma {:induction false} OutboxIsKept(attempts: seq<Attempt>)
    ensures var out := Outbox(attempts);
      var kept := Keep(attempts, Delivered);
      && |out| == |kept|
      && forall i :: 0 <= i < |out| ==> out[i] == kept[i].message
    decreases |attempts|
  {
    if attempts != [] {
      var rest := attempts[1..];
      OutboxIsKept(rest);
      var out, kept := Outbox(attempts), Keep(attempts, Delivered);
      var outRest, keptRest := Outbox(rest), Keep(rest, Delivered);
      if attempts[0].delivered {
        assert out == [attempts[0].message] + outRest;
        assert kept == [attempts[0]] + keptRest;
        forall i | 0 < i < |out|
          ensures out[i] == kept[i].message
        {
          assert out[i] == outRest[i - 1] && kept[i] == keptRest[i - 1];
        }
      } else {
        assert out == outRest;
        assert kept == keptRest;
      }
    }
  }

  /** Every address on every message, in order. */
  function Recipients(ms: seq<Message>): (rs: seq<string>)
    ensures forall m, x :: m in ms && x in m.to ==> x in rs
    ensures forall x :: x in rs ==> exists m :: m in ms && x in m.to
    ensures ms != [] ==> |rs| >= |ms[0].to| && rs[..|ms[0].to|] == ms[0].to
    ensures |ms| == 1 ==> rs == ms[0].to
    decreases |ms|
  {
    if ms == [] then []
    else
      var rest := Recipients(ms[1..]);
      assert forall m :: m in ms[1..] ==> m in ms;
      assert forall m :: m in ms ==> m == ms[0] || m in ms[1..];
      ms[0].to + rest
  }

  /** With contact, sender and requester email all set and no failures,
      exactly two messages go out, the admin notice first and then the
      confirmation, reaching both the admin and the requester. */
  lemma FullyConfiguredSendsTwo(cfg: Config, q: InfoRequest, cruise: string)
    requires AdminConfigured(cfg) && q.email != ""
    ensures var out := Outbox(Notify(cfg, q, cruise, NoFaults).attempts);
      && |out| == 2
      && out[0].to == [cfg.contact.value] && out[1].to == [q.email]
      && cfg.contact.value in Recipients(out) && q.email in Recipients(out)
  {
    var attempts := Notify(cfg, q, cruise, NoFaults).attempts;
    var a := Attempt(AdminMessage(cfg, q, cruise), true);
    var c := Attempt(ConfirmationMessage(cfg, q, cruise), true);
    assert attempts == [a, c];
    assert attempts[1..] == [c];
    assert [c][1..] == [];
    assert Outbox([c]) == [c.message];
    var out := Outbox(attempts);
    assert out == [AdminMessage(cfg, q, cruise), ConfirmationMessage(cfg, q, cruise)];
    assert AdminMessage(cfg, q, cruise) in out && ConfirmationMessage(cfg, q, cruise) in out;
  }

  /** With an empty or absent contact but a sender and a requester email,
      exactly one message goes out, addressed only to the requester. */
  lemma NoContactSendsOnlyConfirmation(cfg: Config, q: InfoRequest, cruise: string)
    requires !Truthy(cfg.contact) && Truthy(cfg.fromEmail) && q.email != ""
    ensures var out := Outbox(Notify(cfg, q, cruise, NoFaults).attempts);
      |out| == 1 && out[0].to == [q.email]
    ensures Notify(cfg, q, cruise, NoFaults).outcome == SkippedNotConfigured
  {
    assert Notify(cfg, q, cruise, NoFaults).attempts == [Attempt(ConfirmationMessage(cfg, q, cruise), true)];
  }

  /** With an empty requester email, only the admin notice goes out. */
  lemma NoRequesterEmailSendsOnlyAdmin(cfg: Config, q: InfoRequest, cruise: string)
    requires AdminConfigured(cfg) && q.email == ""
    ensures var out := Outbox(Notify(cfg, q, cruise, NoFaults).attempts);
      |out| == 1 && out[0].to == [cfg.contact.value]
  {
    assert Notify(cfg, q, cruise, NoFaults).attempts == [Attempt(AdminMessage(cfg, q, cruise), true)];
  }

  /** Without a sender address nothing at all is attempted. */
  lemma NoSenderSendsNothing(cfg: Config, q: InfoRequest, cruise: string, faults: MailFaults)
    requires !Truthy(cfg.fromEmail)
    ensures Notify(cfg, q, cruise, faults).attempts == []
    ensures Notify(cfg, q, cruise, faults).outcome == SkippedNotConfigured
  {
  }

  /** A raising admin send is caught and logged, and since both sends share
      one `try`, the confirmation is never attempted: nothing goes out. */
  lemma AdminFailureSkipsConfirmation(cfg: Config, q: InfoRequest, cruise: string, faults: MailFaults)
    requires AdminConfigured(cfg) && faults.adminRaises
    ensures Notify(cfg, q, cruise, faults).outcome == ExceptionLogged
    ensures |Notify(cfg, q, cruise, faults).attempts| == 1
    ensures Outbox(Notify(cfg, q, cruise, faults).attempts) == []
  {
    var n := Notify(cfg, q, cruise, faults);
    assert n.attempts == [Attempt(AdminMessage(cfg, q, cruise), false)];
  }

  /** A failing confirmation is swallowed: it is attempted, nothing is
      logged for it, and the outbox holds just the admin notice if any. */
  lemma ConfirmationFailureIsSwallowed(cfg: Config, q: InfoRequest, cruise: string)
    requires ConfirmationWanted(cfg, q)
    ensures var n := Notify(cfg, q, cruise, MailFaults(false, true));
      && n.outcome != ExceptionLogged
      && n.attempts[|n.attempts| - 1].message.failSilently
      && Outbox(n.attempts) == (if AdminConfigured(cfg) then [AdminMessage(cfg, q, cruise)] else [])
  {
    var n := Notify(cfg, q, cruise, MailFaults(false, true));
    var c := Attempt(ConfirmationMessage(cfg, q, cruise), false);
    if AdminConfigured(cfg) {
      assert n.attempts == [Attempt(AdminMessage(cfg, q, cruise), true), c];
      assert n.attempts[1..] == [c];
    } else {
      assert n.attempts == [c];
    }
  }

  /** The admin body lists the name, email, cruise and notes, each after its
      label and in that order, and ends with a newline. */
  lemma AdminBodyListsFieldsInOrder(q: InfoRequest, cruise: string)
    ensures var b := AdminBody(q, cruise);
      var emailAt := |NameLabel| + |q.name|;
      var cruiseAt := emailAt + |EmailLabel| + |q.email|;
      var notesAt := cruiseAt + |CruiseLabel| + |cruise|;
      && OccursAt(NameLabel + q.name, b, 0)
      && OccursAt(EmailLabel + q.email, b, emailAt)
      && OccursAt(CruiseLabel + cruise, b, cruiseAt)
      && OccursAt(NotesLabel + q.notes, b, notesAt)
      && |b| == notesAt + |NotesLabel| + |q.notes| + 1
      && b[|b| - 1] == '\n'
  {
    var b := AdminBody(q, cruise);
    var p1 := NameLabel + q.name;
    var p2 := EmailLabel + q.email;
    var p3 := CruiseLabel + cruise;
    var p4 := NotesLabel + q.notes;
    assert b == p1 + p2 + p3 + p4 + "\n";
    assert b[0..|p1|] == p1;
    assert b[|p1|..|p1| + |p2|] == p2;
    assert b[|p1| + |p2|..|p1| + |p2| + |p3|] == p3;
    assert b[|p1| + |p2| + |p3|..|p1| + |p2| + |p3| + |p4|] == p4;
  }

  /** The admin subject names the cruise right after its fixed prefix and
      ends with the requester's name. */
  lemma AdminSubjectNamesCruiseAndRequester(q: InfoRequest, cruise: string)
    ensures var t := AdminSubject(q, cruise);
      && OccursAt(AdminSubjectPrefix + cruise, t, 0)
      && OccursAt(" from ", t, |AdminSubjectPrefix| + |cruise|)
      && |t| == |AdminSubjectPrefix| + |cruise| + |" from "| + |q.name|
      && t[|t| - |q.name|..] == q.name
  {
    var t := AdminSubject(q, cruise);
    assert t == (AdminSubjectPrefix + cruise) + (" from " + q.name);
    OccursBetween(AdminSubjectPrefix + cruise, " from ", q.name);
  }

  /** The confirmation subject is the fixed prefix followed by the cruise's
      display, which ends it. */
  lemma ConfirmationSubjectEndsWithCruise(cruise: string)
    ensures var t := ConfirmationSubject(cruise);
      && OccursAt(ConfirmationSubjectPrefix, t, 0)
      && |t| == |ConfirmationSubjectPrefix| + |cruise|
      && t[|t| - |cruise|..] == cruise
  {
    var t := ConfirmationSubject(cruise);
    assert t[0..|ConfirmationSubjectPrefix|] == ConfirmationSubjectPrefix;
  }

  /** The confirmation greets the requester by name, then repeats the cruise
      and the notes, then promises a reply at the requester's address, and
      closes with the fixed last line. */
  lemma ConfirmationAddressesRequester(q: InfoRequest, cruise: string)
    ensures var b := ConfirmationBody(q, cruise);
      var middleAt := |Greeting| + |q.name|;
      var promiseAt := middleAt + |ThanksLines| + |cruise| + |"\nNotes:\n"| + |q.notes| + |"\n\n"|;
      && OccursAt(Greeting + q.name, b, 0)
      && OccursAt(ThanksLines + cruise + "\nNotes:\n" + q.notes + "\n\n", b, middleAt)
      && OccursAt(ContactPromise + q.email, b, promiseAt)
      && OccursAt(Closing, b, promiseAt + |ContactPromise| + |q.email|)
      && |b| == promiseAt + |ContactPromise| + |q.email| + |Closing|
  {
    var greet := Greeting + q.name;
    var middle := ThanksLines + cruise + "\nNotes:\n" + q.notes + "\n\n";
    var promise := ContactPromise + q.email;
    assert ConfirmationBody(q, cruise) == greet + middle + promise + Closing;
    assert |middle| == |ThanksLines| + |cruise| + |"\nNotes:\n"| + |q.notes| + |"\n\n"|;
    OccursInFour(greet, middle, promise, Closing);
  }
}

=== FILE: seqs.dfy ===
/** Order-preserving filtering of record tables, and distinctness of a key
    (an id, a unique name) across a table. */
module Seqs {

  /** The elements of `xs` for which `keep` holds, in their original order
      (`KeepOfAppend`). Keeping everything changes nothing. */
  function Keep<T(!new)>(xs: seq<T>, keep: T -> bool): (out: seq<T>)
    ensures |out| <= |xs|
    ensures forall x :: x in out <==> x in xs && keep(x)
    ensures (forall x :: x in xs ==> keep(x)) ==> out == xs
    decreases |xs|
  {
    if xs == [] then []
    else (if keep(xs[0]) then [xs[0]] else []) + Keep(xs[1..], keep)
  }

  /** Filtering works piece by piece: what is kept from the first part comes
      before what is kept from the second, so the original order survives. */
  lemma {:induction false} KeepOfAppend<T(!new)>(xs: seq<T>, ys: seq<T>, keep: T -> bool)
    ensures Keep(xs + ys, keep) == Keep(xs, keep) + Keep(ys, keep)
    decreases |xs|
  {
    if xs == [] {
      assert xs + ys == ys;
    } else {
      assert (xs + ys)[0] == xs[0];
      assert (xs + ys)[1..] == xs[1..] + ys;
      KeepOfAppend(xs[1..], ys, keep);
    }
  }

  /** No two positions of `xs` share a key. */
  predicate DistinctBy<T, K(==)>(xs: seq<T>, key: T -> K) {
    forall i, j :: 0 <= i < j < |xs| ==> key(xs[i]) != key(xs[j])
  }

  /** Filtering never introduces a duplicate key. */
  lemma {:induction false} KeepPreservesDistinct<T(!new), K>(xs: seq<T>, keep: T -> bool, key: T -> K)
    ensures DistinctBy(xs, key) ==> DistinctBy(Keep(xs, keep), key)
    decreases |xs|
  {
    if xs != [] && DistinctBy(xs, key) {
      var rest := Keep(xs[1..], keep);
      assert DistinctBy(xs[1..], key) by {
        forall i, j | 0 <= i < j < |xs[1..]|
          ensures key(xs[1..][i]) != key(xs[1..][j])
        {
          assert xs[1..][i] == xs[i + 1] && xs[1..][j] == xs[j + 1];
        }
      }
      KeepPreservesDistinct(xs[1..], keep, key);
      if keep(xs[0]) {
        var out := [xs[0]] + rest;
        forall j | 0 < j < |out|
          ensures key(out[0]) != key(out[j])
        {
          assert out[j] in rest;
          assert out[j] in xs[1..];
          var k :| 0 <= k < |xs[1..]| && xs[1..][k] == out[j];
          assert xs[k + 1] == out[j];
        }
        forall i, j | 0 < i < j < |out|
          ensures key(out[i]) != key(out[j])
        {
          assert out[i] == rest[i - 1] && out[j] == rest[j - 1];
        }
      } else {
        assert Keep(xs, keep) == rest;
      }
    }
  }

  /** Appending an element whose key is new keeps the keys distinct. */
  lemma AppendFreshKeepsDistinct<T(!new), K>(xs: seq<T>, x: T, key: T -> K)
    ensures DistinctBy(xs, key) && (forall y :: y in xs ==> key(y) != key(x)) ==> DistinctBy(xs + [x], key)
  {
    if DistinctBy(xs, key) && (forall y :: y in xs ==> key(y) != key(x)) {
      var out := xs + [x];
      forall i, j | 0 <= i < j < |out|
        ensures key(out[i]) != key(out[j])
      {
        if j == |xs| {
          assert out[i] in xs;
        } else {
          assert out[i] == xs[i] && out[j] == xs[j];
        }
      }
    }
  }

  /** Filtering out an element that is present makes the sequence shorter. */
  lemma {:induction false} KeepShrinks<T(!new)>(xs: seq<T>, keep: T -> bool, x: T)
    requires x in xs && !keep(x)
    ensures |Keep(xs, keep)| < |xs|
    decreases |xs|
  {
    if xs[0] != x {
      assert x in xs[1..];
      KeepShrinks(xs[1..], keep, x);
    }
  }
}

=== FILE: store.dfy ===
/** A small in-memory store of the four tables, with the integrity rules the
    schema declares: unique ids, valid fields, unique Destination and Cruise
    names, and resolvable references. Deleting a Destination cascades to its
    Reviews (and its cruise links); deleting a Cruise is refused while an
    InfoRequest references it. */
module Store {
  import opened Wrappers
  import opened Models
  import opened Seqs
  import opened Forms

  /** All tables, in insertion order, and the next id the store will assign. */
  datatype Store = Store(
    destinations: seq<Destination>,
    cruises: seq<Cruise>,
    infoRequests: seq<InfoRequest>,
    reviews: seq<Review>,
    nextId: nat)

  const Empty: Store := Store([], [], [], [], 0)

  datatype DeleteError = NotFound | Protected

  function DestinationId(d: Destination): nat { d.id }
  function DestinationName(d: Destination): string { d.name }
  function CruiseId(c: Cruise): nat { c.id }
  function CruiseName(c: Cruise): string { c.name }
  function InfoRequestId(q: InfoRequest): nat { q.id }
  function ReviewId(r: Review): nat { r.id }

  predicate IsDestinationId(ds: seq<Destination>, id: nat) {
    exists d :: d in ds && d.id == id
  }

  predicate IsCruiseId(cs: seq<Cruise>, id: nat) {
    exists c :: c in cs && c.id == id
  }

  /** The first cruise in `cs` with id `id` (the only one in a valid store). */
  function CruiseById(cs: seq<Cruise>, id: nat): (c: Cruise)
    requires IsCruiseId(cs, id)
    ensures c in cs && c.id == id
    decreases |cs|
  {
    if cs[0].id == id then cs[0]
    else
      assert IsCruiseId(cs[1..], id) by {
        var c :| c in cs && c.id == id;
        assert c != cs[0];
      }
      CruiseById(cs[1..], id)
  }

  predicate HasDestination(s: Store, id: nat) {
    IsDestinationId(s.destinations, id)
  }

  predicate HasCruise(s: Store, id: nat) {
    IsCruiseId(s.cruises, id)
  }

  predicate DestinationNameTaken(s: Store, name: string) {
    exists d :: d in s.destinations && d.name == name
  }

  predicate CruiseNameTaken(s: Store, name: string) {
    exists c :: c in s.cruises && c.name == name
  }

  /** Some InfoRequest points at the cruise `id`. */
  predicate Referenced(s: Store, id: nat) {
    exists q :: q in s.infoRequests && q.cruise == id
  }

  /** Every stored id is below the counter, and ids are distinct per table. */
  predicate IdsWellFormed(s: Store) {
    && (forall d :: d in s.destinations ==> d.id < s.nextId)
    && (forall c :: c in s.cruises ==> c.id < s.nextId)
    && (forall q :: q in s.infoRequests ==> q.id < s.nextId)
    && (forall r :: r in s.reviews ==> r.id < s.nextId)
    && DistinctBy(s.destinations, DestinationId)
    && DistinctBy(s.cruises, CruiseId)
    && DistinctBy(s.infoRequests, InfoRequestId)
    && DistinctBy(s.reviews, ReviewId)
  }

  predicate FieldsValid(s: Store) {
    && (forall d :: d in s.destinations ==> ValidDestination(d))
    && (forall c :: c in s.cruises ==> ValidCruise(c))
    && (forall q :: q in s.infoRequests ==> ValidInfoRequest(q))
    && (forall r :: r in s.reviews ==> ValidReview(r))
  }

  predicate NamesUnique(s: Store) {
    DistinctBy(s.destinations, DestinationName) && DistinctBy(s.cruises, CruiseName)
  }

  /** Every foreign key and many-to-many link names a stored record. */
  predicate RefsResolve(s: Store) {
    && (forall r :: r in s.reviews ==> IsDestinationId(s.destinations, r.destination))
    && (forall c, x :: c in s.cruises && x in c.destinations ==> IsDestinationId(s.destinations, x))
    && (forall q :: q in s.infoRequests ==> IsCruiseId(s.cruises, q.cruise))
  }

  predicate Valid(s: Store) {
    IdsWellFormed(s) && FieldsValid(s) && NamesUnique(s) && RefsResolve(s)
  }

  lemma EmptyIsValid()
    ensures Valid(Empty)
  {
  }

  // ----- inserts -----

  /** Appending a valid Destination with a fresh id and an untaken name keeps the store valid. */
  lemma AppendDestinationValid(s: Store, d: Destination)
    requires Valid(s)
    requires d.id == s.nextId && ValidDestination(d) && !DestinationNameTaken(s, d.name)
    ensures Valid(s.(destinations := s.destinations + [d], nextId := s.nextId + 1))
  {
    var s' := s.(destinations := s.destinations + [d], nextId := s.nextId + 1);
    AppendFreshKeepsDistinct(s.destinations, d, DestinationId);
    AppendFreshKeepsDistinct(s.destinations, d, DestinationName);
    forall x | IsDestinationId(s.destinations, x)
      ensures IsDestinationId(s.destinations + [d], x)
    {
      var e :| e in s.destinations && e.id == x;
      assert e in s.destinations + [d];
    }
  }

  /** Appending a valid Cruise with a fresh id, an untaken name and existing
      destinations keeps the store valid. */
  lemma AppendCruiseValid(s: Store, c: Cruise)
    requires Valid(s)
    requires c.id == s.nextId && ValidCruise(c) && !CruiseNameTaken(s, c.name)
    requires forall x :: x in c.destinations ==> HasDestination(s, x)
    ensures Valid(s.(cruises := s.cruises + [c], nextId := s.nextId + 1))
  {
    var s' := s.(cruises := s.cruises + [c], nextId := s.nextId + 1);
    AppendFreshKeepsDistinct(s.cruises, c, CruiseId);
    AppendFreshKeepsDistinct(s.cruises, c, CruiseName);
    forall x | HasCruise(s, x)
      ensures HasCruise(s', x)
    {
      var e :| e in s.cruises && e.id == x;
      assert e in s'.cruises;
    }
  }

  /** Appending a valid InfoRequest with a fresh id on an existing cruise keeps the store valid. */
  lemma AppendInfoRequestValid(s: Store, q: InfoRequest)
    requires Valid(s)
    requires q.id == s.nextId && ValidInfoRequest(q) && HasCruise(s, q.cruise)
    ensures Valid(s.(infoRequests := s.infoRequests + [q], nextId := s.nextId + 1))
  {
    AppendFreshKeepsDistinct(s.infoRequests, q, InfoRequestId);
  }

  /** Appending a valid Review with a fresh id on an existing destination keeps the store valid. */
  lemma AppendReviewValid(s: Store, v: Review)
    requires Valid(s)
    requires v.id == s.nextId && ValidReview(v) && HasDestination(s, v.destination)
    ensures Valid(s.(reviews := s.reviews + [v], nextId := s.nextId + 1))
  {
    AppendFreshKeepsDistinct(s.reviews, v, ReviewId);
  }

  /** Creating a Destination from its form (`name`, `description`): rejected
      with field errors when a field is blank or too long or the name is
      taken; otherwise the record is appended under a fresh id. */
  function AddDestination(s: Store, name: string, description: string): (r: Result<Store, seq<FieldError>>)
    ensures r.Ok? <==> RequiredText(name, NameMaxLength) && RequiredText(description, DescriptionMaxLength)
                       && !DestinationNameTaken(s, name)
    ensures r.Err? ==> r.error != []
    ensures r.Err? ==> (Flags(r.error, Name) <==> !RequiredText(name, NameMaxLength) || DestinationNameTaken(s, name))
    ensures r.Ok? ==> r.value.destinations == s.destinations + [Destination(s.nextId, name, description)]
                      && r.value.cruises == s.cruises && r.value.infoRequests == s.infoRequests
                      && r.value.reviews == s.reviews
    ensures r.Ok? && Valid(s) ==> Valid(r.value)
  {
    var nameErrors := TextErrors(Name, name, NameMaxLength);
    var es := (if nameErrors == [] && DestinationNameTaken(s, name) then [FieldError(Name, NotUnique)] else nameErrors)
              + TextErrors(Description, description, DescriptionMaxLength);
    if es != [] then
      assert es[0] in es;
      Err(es)
    else
      var d := Destination(s.nextId, name, description);
      assert Valid(s) ==> Valid(s.(destinations := s.destinations + [d], nextId := s.nextId + 1)) by {
        if Valid(s) {
          AppendDestinationValid(s, d);
        }
      }
      Ok(s.(destinations := s.destinations + [d], nextId := s.nextId + 1))
  }

  /** Creating a Cruise with its name, description and the destinations it
      visits: rejected when a field is blank or too long, the name is taken,
      no destination is chosen (the many-to-many field is not `blank=True`)
      or a chosen destination does not exist. */
  function AddCruise(s: Store, name: string, description: string, destinations: set<nat>): (r: Result<Store, seq<FieldError>>)
    ensures r.Ok? <==> RequiredText(name, NameMaxLength) && RequiredText(description, DescriptionMaxLength)
                       && !CruiseNameTaken(s, name)
                       && destinations != {} && (forall x :: x in destinations ==> HasDestination(s, x))
    ensures r.Err? ==> r.error != []
    ensures r.Err? ==> (Flags(r.error, Name) <==> !RequiredText(name, NameMaxLength) || CruiseNameTaken(s, name))
    ensures r.Err? ==> (Flags(r.error, DestinationChoice) <==>
                          destinations == {} || exists x :: x in destinations && !HasDestination(s, x))
    ensures destinations == {} ==> r.Err? && FieldError(DestinationChoice, Required) in r.error
    ensures r.Ok? ==> r.value.cruises == s.cruises + [Cruise(s.nextId, name, description, destinations)]
                      && r.value.destinations == s.destinations && r.value.infoRequests == s.infoRequests
                      && r.value.reviews == s.reviews
    ensures r.Ok? && Valid(s) ==> Valid(r.value)
  {
    var nameErrors := TextErrors(Name, name, NameMaxLength);
    var choiceErrors :=
      if destinations == {} then [FieldError(DestinationChoice, Required)]
      else if forall x :: x in destinations ==> HasDestination(s, x) then []
      else [FieldError(DestinationChoice, InvalidChoice)];
    var es := (if nameErrors == [] && CruiseNameTaken(s, name) then [FieldError(Name, NotUnique)] else nameErrors)
              + TextErrors(Description, description, DescriptionMaxLength)
              + choiceErrors;
    if es != [] then
      assert es[0] in es;
      assert choiceErrors != [] ==> es[|es| - 1] == choiceErrors[0];
      Err(es)
    else
      var c := Cruise(s.nextId, name, description, destinations);
      assert Valid(s) ==> Valid(s.(cruises := s.cruises + [c], nextId := s.nextId + 1)) by {
        if Valid(s) {
          AppendCruiseValid(s, c);
        }
      }
      Ok(s.(cruises := s.cruises + [c], nextId := s.nextId + 1))
  }

  /** Stores an InfoRequest that passed its form's validation. */
  function InsertInfoRequest(s: Store, name: string, email: string, notes: string, cruise: nat): (r: Store)
    requires HasCruise(s, cruise)
    ensures r.infoRequests == s.infoRequests + [InfoRequest(s.nextId, name, email, notes, cruise)]
    ensures r.destinations == s.destinations && r.cruises == s.cruises && r.reviews == s.reviews
    ensures Valid(s) && ValidInfoRequest(InfoRequest(s.nextId, name, email, notes, cruise)) ==> Valid(r)
  {
    var q := InfoRequest(s.nextId, name, email, notes, cruise);
    assert Valid(s) && ValidInfoRequest(q) ==> Valid(s.(infoRequests := s.infoRequests + [q], nextId := s.nextId + 1)) by {
      if Valid(s) && ValidInfoRequest(q) {
        AppendInfoRequestValid(s, q);
      }
    }
    s.(infoRequests := s.infoRequests + [q], nextId := s.nextId + 1)
  }

  /** What the review submission on a destination's page answers. */
  datatype ReviewResponse =
    | ReviewNotFound                        // no such destination (404)
    | Rerender(errors: seq<FieldError>)     // the page again, with field errors
    | RedirectToDetail(destination: nat)    // back to the destination's page

  datatype ReviewOutcome = ReviewOutcome(store: Store, response: ReviewResponse)

  /** Posting the review form on destination `destination` at time `now`: the
      destination is fixed by the page and the timestamp by the server; a
      rejected form leaves the store exactly as it was. */
  function SubmitReview(s: Store, destination: nat, sub: ReviewSubmission, now: nat): (o: ReviewOutcome)
    ensures o.response.ReviewNotFound? <==> !HasDestination(s, destination)
    ensures o.response.RedirectToDetail? <==> HasDestination(s, destination) && ValidSubmission(sub)
    ensures !o.response.RedirectToDetail? ==> o.store == s
    ensures o.response.Rerender? ==> o.response.errors == ValidateReview(sub).error && o.response.errors != []
    ensures o.response.RedirectToDetail? ==>
              && o.response.destination == destination
              && o.store.reviews == s.reviews + [Review(s.nextId, destination, sub.author, sub.rating.n, sub.comment, now)]
              && o.store.destinations == s.destinations && o.store.cruises == s.cruises
              && o.store.infoRequests == s.infoRequests
    ensures Valid(s) ==> Valid(o.store)
  {
    if !HasDestination(s, destination) then ReviewOutcome(s, ReviewNotFound)
    else
      match ValidateReview(sub)
      case Err(es) => ReviewOutcome(s, Rerender(es))
      case Ok(data) =>
        var v := Review(s.nextId, destination, data.author, data.rating, data.comment, now);
        assert Valid(s) ==> Valid(s.(reviews := s.reviews + [v], nextId := s.nextId + 1)) by {
          if Valid(s) {
            AppendReviewValid(s, v);
          }
        }
        ReviewOutcome(s.(reviews := s.reviews + [v], nextId := s.nextId + 1), RedirectToDetail(destination))
  }

  // ----- deletes -----

  function DestinationsExcept(ds: seq<Destination>, id: nat): (out: seq<Destination>)
    ensures forall d :: d in out <==> d in ds && d.id != id
    ensures DistinctBy(ds, DestinationId) ==> DistinctBy(out, DestinationId)
    ensures DistinctBy(ds, DestinationName) ==> DistinctBy(out, DestinationName)
  {
    var keep := (d: Destination) => d.id != id;
    KeepPreservesDistinct(ds, keep, DestinationId);
    KeepPreservesDistinct(ds, keep, DestinationName);
    Keep(ds, keep)
  }

  function ReviewsNotOn(rs: seq<Review>, destination: nat): (out: seq<Review>)
    ensures forall r :: r in out <==> r in rs && r.destination != destination
    ensures DistinctBy(rs, ReviewId) ==> DistinctBy(out, ReviewId)
  {
    var keep := (r: Review) => r.destination != destination;
    KeepPreservesDistinct(rs, keep, ReviewId);
    Keep(rs, keep)
  }

  function CruisesExcept(cs: seq<Cruise>, id: nat): (out: seq<Cruise>)
    ensures forall c :: c in out <==> c in cs && c.id != id
    ensures DistinctBy(cs, CruiseId) ==> DistinctBy(out, CruiseId)
    ensures DistinctBy(cs, CruiseName) ==> DistinctBy(out, CruiseName)
    ensures (exists c :: c in cs && c.id == id) ==> |out| < |cs|
  {
    var keep := (c: Cruise) => c.id != id;
    KeepPreservesDistinct(cs, keep, CruiseId);
    KeepPreservesDistinct(cs, keep, CruiseName);
    assert (exists c :: c in cs && c.id == id) ==> |Keep(cs, keep)| < |cs| by {
      if c :| c in cs && c.id == id {
        KeepShrinks(cs, keep, c);
      }
    }
    Keep(cs, keep)
  }

  /** Drops the link to destination `id` from every cruise (the join rows of
      the many-to-many relation go with the destination). */
  function Unlink(cs: seq<Cruise>, id: nat): (out: seq<Cruise>)
    ensures |out| == |cs|
    ensures forall i :: 0 <= i < |cs| ==>
              out[i].id == cs[i].id && out[i].name == cs[i].name && out[i].description == cs[i].description
              && out[i].destinations == cs[i].destinations - {id}
    ensures DistinctBy(cs, CruiseId) ==> DistinctBy(out, CruiseId)
    ensures DistinctBy(cs, CruiseName) ==> DistinctBy(out, CruiseName)
  {
    seq(|cs|, i requires 0 <= i < |cs| => cs[i].(destinations := cs[i].destinations - {id}))
  }

  /** Deleting Destination `id`: the destination and exactly the Reviews on it
      disappear, cruises lose their link to it, and nothing else changes. */
  function DeleteDestination(s: Store, id: nat): (r: Result<Store, DeleteError>)
    ensures r.Err? <==> !HasDestination(s, id)
    ensures r.Err? ==> r.error == NotFound
    ensures r.Ok? ==>
              && (forall d :: d in r.value.destinations <==> d in s.destinations && d.id != id)
              && (forall v :: v in r.value.reviews <==> v in s.reviews && v.destination != id)
              && |r.value.cruises| == |s.cruises|
              && (forall i :: 0 <= i < |s.cruises| ==>
                    r.value.cruises[i] == s.cruises[i].(destinations := s.cruises[i].destinations - {id}))
              && r.value.infoRequests == s.infoRequests
              && r.value.nextId == s.nextId
  {
    if !HasDestination(s, id) then Err(NotFound)
    else
      var cs := Unlink(s.cruises, id);
      assert forall i :: 0 <= i < |s.cruises| ==> cs[i] == s.cruises[i].(destinations := s.cruises[i].destinations - {id});
      Ok(s.(destinations := DestinationsExcept(s.destinations, id),
            cruises := cs,
            reviews := ReviewsNotOn(s.reviews, id)))
  }

  /** A destination other than the deleted one is still present afterwards. */
  lemma SurvivesDelete(ds: seq<Destination>, id: nat, x: nat)
    requires IsDestinationId(ds, x) && x != id
    ensures IsDestinationId(DestinationsExcept(ds, id), x)
  {
    var d :| d in ds && d.id == x;
    assert d in DestinationsExcept(ds, id);
  }

  /** After unlinking, every cruise is still valid and every link it keeps
      names a surviving destination. */
  lemma UnlinkedCruisesResolve(s: Store, id: nat)
    requires Valid(s)
    ensures forall c :: c in Unlink(s.cruises, id) ==> ValidCruise(c) && c.id < s.nextId
    ensures forall c, x :: c in Unlink(s.cruises, id) && x in c.destinations ==>
              IsDestinationId(DestinationsExcept(s.destinations, id), x)
  {
    var cs := Unlink(s.cruises, id);
    forall c | c in cs
      ensures ValidCruise(c) && c.id < s.nextId
      ensures forall x :: x in c.destinations ==> IsDestinationId(DestinationsExcept(s.destinations, id), x)
    {
      var k :| 0 <= k < |cs| && cs[k] == c;
      assert s.cruises[k] in s.cruises;
      forall x | x in c.destinations
        ensures IsDestinationId(DestinationsExcept(s.destinations, id), x)
      {
        assert x in s.cruises[k].destinations && x != id;
        SurvivesDelete(s.destinations, id, x);
      }
    }
  }

  /** Unlinking keeps every cruise id, so every InfoRequest still resolves. */
  lemma UnlinkKeepsCruiseIds(cs: seq<Cruise>, id: nat, x: nat)
    requires IsCruiseId(cs, x)
    ensures IsCruiseId(Unlink(cs, id), x)
  {
    var c :| c in cs && c.id == x;
    var k :| 0 <= k < |cs| && cs[k] == c;
    assert Unlink(cs, id)[k] in Unlink(cs, id);
  }

  /** Cascade delete keeps the store valid: no Review or cruise link is left
      pointing at the deleted destination. */
  lemma DeleteDestinationPreservesValid(s: Store, id: nat)
    requires Valid(s)
    requires DeleteDestination(s, id).Ok?
    ensures Valid(DeleteDestination(s, id).value)
  {
    var s' := DeleteDestination(s, id).value;
    var ds := DestinationsExcept(s.destinations, id);
    assert s' == s.(destinations := ds, cruises := Unlink(s.cruises, id), reviews := ReviewsNotOn(s.reviews, id));
    UnlinkedCruisesResolve(s, id);
    forall r | r in s'.reviews
      ensures IsDestinationId(ds, r.destination)
    {
      SurvivesDelete(s.destinations, id, r.destination);
    }
    forall q | q in s'.infoRequests
      ensures IsCruiseId(s'.cruises, q.cruise)
    {
      UnlinkKeepsCruiseIds(s.cruises, id, q.cruise);
    }
    assert RefsResolve(s');
    assert IdsWellFormed(s');
    assert FieldsValid(s');
  }

  /** Deleting Cruise `id`: refused (store untouched) while any InfoRequest
      references it; otherwise exactly that cruise disappears. */
  function DeleteCruise(s: Store, id: nat): (r: Result<Store, DeleteError>)
    ensures r == Err(NotFound) <==> !HasCruise(s, id)
    ensures r == Err(Protected) <==> HasCruise(s, id) && Referenced(s, id)
    ensures r.Ok? ==>
              && (forall c :: c in r.value.cruises <==> c in s.cruises && c.id != id)
              && |r.value.cruises| < |s.cruises|
              && r.value.destinations == s.destinations
              && r.value.infoRequests == s.infoRequests
              && r.value.reviews == s.reviews
              && r.value.nextId == s.nextId
  {
    if !HasCruise(s, id) then Err(NotFound)
    else if Referenced(s, id) then Err(Protected)
    else
      Ok(s.(cruises := CruisesExcept(s.cruises, id)))
  }

  /** Protect-on-delete keeps the store valid: no InfoRequest is left
      pointing at a missing cruise. */
  lemma DeleteCruisePreservesValid(s: Store, id: nat)
    requires Valid(s)
    requires DeleteCruise(s, id).Ok?
    ensures Valid(DeleteCruise(s, id).value)
  {
    var s' := DeleteCruise(s, id).value;
    assert s'.cruises == CruisesExcept(s.cruises, id);
    forall q | q in s'.infoRequests
      ensures HasCruise(s', q.cruise)
    {
      var c :| c in s.cruises && c.id == q.cruise;
      assert c in s'.cruises;
    }
  }
}

=== FILE: text.dfy ===
/** Text helpers: Python truthiness of a setting, decimal rendering of
    integers (what `str(int)` and an f-string `{n}` produce) and its parser,
    and positional substring occurrence. */
module Text {
  import opened Wrappers

  /** `if value:` in Python for a setting read with `getattr(settings, NAME, None)`:
      absent (None) and the empty string are both false. `CONTACT_EMAIL` may be
      absent; `DEFAULT_FROM_EMAIL` has a framework default, so for it only the
      empty string is false in practice, and the general case is harmless. */
  predicate Truthy(o: Option<string>) {
    o.Some? && o.value != ""
  }

  predicate IsDigit(c: char) {
    '0' <= c <= '9'
  }

  predicate AllDigits(s: string) {
    forall i :: 0 <= i < |s| ==> IsDigit(s[i])
  }

  function DigitChar(d: nat): (c: char)
    requires d < 10
    ensures IsDigit(c)
    ensures DigitValue(c) == d
  {
    (d + '0' as int) as char
  }

  function DigitValue(c: char): (d: nat)
    requires IsDigit(c)
    ensures d < 10
  {
    c as int - '0' as int
  }

  /** Decimal digits of `n`, most significant first, without leading zeros. */
  function NatToString(n: nat): (s: string)
    ensures |s| >= 1
    ensures AllDigits(s)
    ensures |s| == 1 <==> n < 10
    ensures s[0] == '0' ==> n == 0
    decreases n
  {
    if n < 10 then [DigitChar(n)]
    else NatToString(n / 10) + [DigitChar(n % 10)]
  }

  /** Value of a string of decimal digits (the empty string reads as 0). */
  function DigitsValue(s: string): nat
    requires AllDigits(s)
    decreases |s|
  {
    if s == [] then 0
    else DigitsValue(s[..|s| - 1]) * 10 + DigitValue(s[|s| - 1])
  }

  lemma {:induction false} DigitsValueOfNatToString(n: nat)
    ensures DigitsValue(NatToString(n)) == n
    decreases n
  {
    var s := NatToString(n);
    if n >= 10 {
      DigitsValueOfNatToString(n / 10);
      assert s[..|s| - 1] == NatToString(n / 10);
      assert s[|s| - 1] == DigitChar(n % 10);
    }
  }

  /** Python's `str(i)` for an integer: an optional minus sign, then the digits. */
  function IntToString(i: int): string {
    if i < 0 then "-" + NatToString(-i) else NatToString(i)
  }

  /** Reads back an optional minus sign followed by at least one digit. */
  function ParseInt(s: string): Option<int> {
    if |s| >= 2 && s[0] == '-' && AllDigits(s[1..]) then Some(-(DigitsValue(s[1..]) as int))
    else if |s| >= 1 && AllDigits(s) then Some(DigitsValue(s))
    else None
  }

  /** `IntToString` and `ParseInt` are inverse: every integer renders to text
      that reads back as the same integer. */
  lemma ParseIntOfIntToString(i: int)
    ensures ParseInt(IntToString(i)) == Some(i)
  {
    if i < 0 {
      ParseNegative(-i);
    } else {
      ParseNonNegative(i);
    }
  }

  lemma ParseNonNegative(n: nat)
    ensures ParseInt(NatToString(n)) == Some(n)
  {
    var s := NatToString(n);
    assert IsDigit(s[0]);
    DigitsValueOfNatToString(n);
  }

  lemma ParseNegative(n: nat)
    requires n > 0
    ensures ParseInt("-" + NatToString(n)) == Some(-(n as int))
  {
    var t := NatToString(n);
    var s := "-" + t;
    assert s[1..] == t;
    assert s[0] == '-';
    DigitsValueOfNatToString(n);
  }

  /** `needle` occurs in `hay` starting at index `at`. */
  predicate OccursAt(needle: string, hay: string, at: nat) {
    at + |needle| <= |hay| && hay[at..at + |needle|] == needle
  }

  /** The middle part of a concatenation occurs right after the first part. */
  lemma OccursBetween(x: string, y: string, z: string)
    ensures OccursAt(y, x + y + z, |x|)
  {
    assert (x + y + z)[|x|..|x| + |y|] == y;
  }

  /** Each of four concatenated parts occurs where the parts before it end. */
  lemma OccursInFour(a: string, b: string, c: string, d: string)
    ensures var s := a + b + c + d;
      && OccursAt(a, s, 0)
      && OccursAt(b, s, |a|)
      && OccursAt(c, s, |a| + |b|)
      && OccursAt(d, s, |a| + |b| + |c|)
      && |s| == |a| + |b| + |c| + |d|
  {
    var s := a + b + c + d;
    assert s[0..|a|] == a;
    assert s[|a|..|a| + |b|] == b;
    assert s[|a| + |b|..|a| + |b| + |c|] == c;
    assert s[|a| + |b| + |c|..|s|] == d;
  }
}

=== FILE: views.dfy ===
/** `InfoRequestCreate`: validate the submitted form (`name`, `email`,
    `cruise`, `notes`), save the InfoRequest, run the mail decision on the
    saved record, and redirect to the index with a success message. */
module Views {
  import opened Wrappers
  import opened Models
  import opened Store
  import opened Notifier
  import opened Text

  /** The four bound fields; `cruise` is the chosen cruise id, if any. */
  datatype InfoRequestForm = InfoRequestForm(name: string, email: string, cruise: Option<nat>, notes: string)

  datatype Response =
    | Redirect(url: string, flash: string)   // success: to the index, with a message
    | Reshow(errors: seq<FieldError>)        // the form again, with field errors

  /** What handling one submission produced: the store afterwards, the HTTP
      answer, the record as saved (if any) and the mail decision made on it
      (none when the form was invalid and `form_valid` never ran). */
  datatype Handled = Handled(store: Store, response: Response, saved: Option<InfoRequest>, mail: Option<Notification>)

  const SuccessUrl: string := "index"

  const SuccessGreeting: string := "Thank you, "
  const SuccessMiddle: string := "! We will email you when we have more information about "

  /** `success_message` with the request's name and the cruise's display. */
  function SuccessMessage(name: string, cruise: string): string {
    SuccessGreeting + name + SuccessMiddle + (cruise + "!")
  }

  predicate ValidForm(s: Store, f: InfoRequestForm) {
    && RequiredText(f.name, NameMaxLength)
    && f.email != ""
    && f.cruise.Some? && HasCruise(s, f.cruise.value)
    && RequiredText(f.notes, NotesMaxLength)
  }

  function CruiseChoiceErrors(s: Store, choice: Option<nat>): (es: seq<FieldError>)
    ensures es == [] <==> choice.Some? && HasCruise(s, choice.value)
    ensures forall e :: e in es ==> e.field == CruiseChoice
  {
    if choice.None? then [FieldError(CruiseChoice, Required)]
    else if !HasCruise(s, choice.value) then [FieldError(CruiseChoice, InvalidChoice)]
    else []
  }

  /** The form's field errors: empty exactly when the form is valid, and each
      field is flagged exactly when its own value is unacceptable. */
  function FormErrors(s: Store, f: InfoRequestForm): (es: seq<FieldError>)
    ensures es == [] <==> ValidForm(s, f)
    ensures Flags(es, Name) <==> !RequiredText(f.name, NameMaxLength)
    ensures Flags(es, Email) <==> f.email == ""
    ensures Flags(es, CruiseChoice) <==> !(f.cruise.Some? && HasCruise(s, f.cruise.value))
    ensures Flags(es, Notes) <==> !RequiredText(f.notes, NotesMaxLength)
  {
    var n := TextErrors(Name, f.name, NameMaxLength);
    var e := if f.email == "" then [FieldError(Email, Required)] else [];
    var c := CruiseChoiceErrors(s, f.cruise);
    var o := TextErrors(Notes, f.notes, NotesMaxLength);
    var es := n + e + c + o;
    assert forall x :: x in es ==> x in n || x in e || x in c || x in o;
    assert n != [] ==> n[0] in es;
    assert e != [] ==> e[0] in es;
    assert c != [] ==> c[0] in es;
    assert o != [] ==> o[0] in es;
    es
  }

  /** Handles a POST of the info-request form. An invalid form is shown again
      and nothing is saved or mailed. A valid one is saved first; the mail
      decision then runs on the saved record, and whatever it does, the
      answer is the redirect to the index with the success message. */
  function HandleInfoRequest(s: Store, cfg: Config, f: InfoRequestForm, faults: MailFaults): (h: Handled)
    ensures h.response.Redirect? <==> ValidForm(s, f)
    ensures h.response.Reshow? ==> h.store == s && h.saved.None? && h.mail.None?
                                     && h.response.errors == FormErrors(s, f) && h.response.errors != []
    ensures h.response.Redirect? ==>
              && h.saved.Some?
              && h.store.infoRequests == s.infoRequests + [h.saved.value]
              && h.store.destinations == s.destinations && h.store.cruises == s.cruises
              && h.store.reviews == s.reviews
              && h.saved.value.name == f.name && h.saved.value.email == f.email
              && h.saved.value.notes == f.notes && Some(h.saved.value.cruise) == f.cruise
              && h.response.url == SuccessUrl
              && h.response.flash == SuccessMessage(f.name, CruiseDisplay(CruiseById(s.cruises, f.cruise.value)))
              && h.mail == Some(Notify(cfg, h.saved.value, CruiseDisplay(CruiseById(s.cruises, f.cruise.value)), faults))
    ensures Valid(s) ==> Valid(h.store)
  {
    var es := FormErrors(s, f);
    if es != [] then Handled(s, Reshow(es), None, None)
    else
      var s' := InsertInfoRequest(s, f.name, f.email, f.notes, f.cruise.value);
      var q := s'.infoRequests[|s'.infoRequests| - 1];
      var cruise := CruiseDisplay(CruiseById(s.cruises, f.cruise.value));
      Handled(s', Redirect(SuccessUrl, SuccessMessage(f.name, cruise)), Some(q), Some(Notify(cfg, q, cruise, faults)))
  }

  /** No exception escapes and the mail outcome never changes the answer or
      the store: any two fault patterns give the same store and response. */
  lemma MailFaultsNeverChangeResponse(s: Store, cfg: Config, f: InfoRequestForm, faults1: MailFaults, faults2: MailFaults)
    ensures HandleInfoRequest(s, cfg, f, faults1).response == HandleInfoRequest(s, cfg, f, faults2).response
    ensures HandleInfoRequest(s, cfg, f, faults1).store == HandleInfoRequest(s, cfg, f, faults2).store
  {
  }

  /** The success message thanks the requester by name, then promises an
      email about the cruise, which ends it with "!". */
  lemma SuccessMessageNamesRequesterAndCruise(name: string, cruise: string)
    ensures var m := SuccessMessage(name, cruise);
      var cruiseAt := |SuccessGreeting| + |name| + |SuccessMiddle|;
      && OccursAt(SuccessGreeting, m, 0)
      && OccursAt(name, m, |SuccessGreeting|)
      && OccursAt(SuccessMiddle, m, |SuccessGreeting| + |name|)
      && OccursAt(cruise + "!", m, cruiseAt)
      && |m| == cruiseAt + |cruise| + 1
  {
    OccursInFour(SuccessGreeting, name, SuccessMiddle, cruise + "!");
  }
}

=== FILE: wrappers.dfy ===
/** An optional value (an absent setting, a blank choice) and a
    value-or-error result, used across the model. */
module Wrappers {

  datatype Option<+T> = None | Some(value: T)

  datatype Result<+T, +E> = Ok(value: T) | Err(error: E)
}
